=== FILE: README.md ===
# Guess the Voice: game session and results, in Dafny

This project models the core of a browser quiz game. The player hears ten voice clips one after another and guesses for each whether it is a human or an AI voice. The game screen (`VoiceGame`) keeps a score, the current and the longest streak of right answers, the list of answers, a replay counter and a flag that opens the results dialog. The results dialog (`ResultsModal`) turns those numbers into an accuracy percentage, a performance tier (an emoji and a message), badges and a plain-text scorecard for sharing.

Three modules, one file each:

- `voice_game.dfy`, module `VoiceGame`. It holds the ten hard-coded clips and the constants `TotalClips = 10` and `MaxReplays = 3`.
  - `Session` is the game state as a value. `AfterGuess`, `AfterPlay`, `AfterReset`, `AfterClose`, `AfterPlayAgain` and `AfterKey` give each handler's effect on it. `Step` and `Run` apply any sequence of user inputs.
  - `Inv` is the invariant that every reachable state satisfies. The lemmas prove it, along with what a whole game produces.
  - `GameSession` is the component as a class. Its fields are the component's state variables. Each of its methods is proved to change the state exactly as the matching `After*` function says, and to keep `Valid()`.
- `results_modal.dfy`, module `ResultsModal`: the percentage, the tier chain, the badges, and `Results`, which is everything the dialog shows.
- `scorecard.dfy`, module `Scorecard`: decimal numerals, the ✅/❌ grid and the share text. It also has a reader for the share text. This lets the layout be stated as a round trip: reading the text back gives back the score, the total, the streak and the whole answer history.

Behaviour of the code that the model keeps as written:

- `playClip` raises the replay counter only when it is already non-zero. The counter starts at 0, so it never moves. `ReachableInv` proves that it stays 0 in every reachable state.
- `resetGame` does not clear `longestStreak`. So after a reset the best streak is at least the longest run of the new game, not necessarily equal to it (`GameLongestStreak`).
- On the last clip the index is not advanced: the results flag is set and the index stays at 9. The proved invariant is `clipIndex == min(|history|, 9)`.
- Nothing stops a guess after the last clip. The key handler stays active while the results are open, and closing the dialog without "Play Again" leaves the guess buttons usable. Each such guess scores against clip 9 again, so the history can grow past ten entries. `Inv` allows for this. The percentage and the badges count right answers, not clips: a 9/10 game followed by one extra right guess on the last clip shows 100 % and Perfect Score. Eleven right answers show 110 % and no Perfect Score (`ElevenRightGuesses`).
- The 1.5-second delay before the next clip is folded into the guess itself (see Left out).

## Model

| member | source | states |
|---|---|---|
| VoiceGame.MockClipsShape | src/components/VoiceGame.tsx:19-30 | There are ten clips with distinct ids; clip i is an AI voice exactly when i is odd |
| VoiceGame.IsCorrect | src/components/VoiceGame.tsx:98 | A guess is right exactly when "AI" is guessed on an odd clip position or "human" on an even one |
| VoiceGame.AfterGuess | src/components/VoiceGame.tsx:97-143 | A guess appends whether it matched the current clip's label. A right guess adds 1 to the score and the streak, and the best streak becomes max(old best, new streak). A wrong guess zeroes the streak and leaves the score and the best streak alone. Before the last clip the index moves up by one and the replay counter resets to 0; on the last clip the index stays and the results open. The index stays inside the clip list |
| VoiceGame.AfterPlay | src/components/VoiceGame.tsx:77-81 | The replay counter is zero afterwards exactly when it was zero before; a non-zero counter goes up by one; nothing else changes |
| VoiceGame.AfterReset | src/components/VoiceGame.tsx:145-152 | Index, score, current streak and replay counter become 0, the history becomes empty and the results close; the best streak is kept |
| VoiceGame.AfterPlayAgain | src/components/ResultsModal.tsx:89-92 | Play Again (onPlayAgain, which is resetGame, then onClose) ends in the same state as a reset |
| VoiceGame.AfterClose | src/components/VoiceGame.tsx:293 | Only the results flag changes, and it becomes false; a state satisfying the invariant still satisfies it |
| VoiceGame.KeyCommand | src/components/VoiceGame.tsx:53-63 | Both directions of the key mapping: a guess of "human" exactly for h or H, a guess of "AI" exactly for a or A, a play exactly for r or R while the replay counter is below MaxReplays; every other key gives no command |
| VoiceGame.AfterKey | src/components/VoiceGame.tsx:53-63 | h/H has the effect of a human guess and a/A that of an AI guess. r/R plays the clip while replays remain and otherwise changes nothing. Any other key leaves the state unchanged |
| VoiceGame.Step | src/components/VoiceGame.tsx:47 | In this model, where the delayed advance happens within the guess, every input (guess or play button, replay button, key, closing the dialog, Play Again) keeps the clip index inside the ten clips, so the lookup of the current clip is in bounds |
| VoiceGame.CountTrueIsMultiplicity | src/components/VoiceGame.tsx:100-108 | The score function CountTrue is the number of occurrences of true in the history |
| VoiceGame.AppendAnswer | src/components/VoiceGame.tsx:100-121 | Appending an answer adds it to the count of right answers. A right answer extends the trailing run by one and a wrong one zeroes it. The longest run becomes the larger of the old longest run and the new trailing run |
| VoiceGame.TrailingRunIsMaximalSuffix | src/components/VoiceGame.tsx:103-120 | The current-streak function TrailingRun is the length of the all-true tail of the history, and that tail cannot be extended |
| VoiceGame.LongestRunIsLongestWindow | src/components/VoiceGame.tsx:103-107 | LongestRun is at least the length of every all-true window of the history, and some window has exactly that length |
| VoiceGame.GuessKeepsInv | src/components/VoiceGame.tsx:97-143 | A guess keeps the invariant: index == min(answers, 9), score == right answers, current streak == trailing run, best streak ≥ longest run, results only after ten answers. Afterwards the best streak is ≥ the current one |
| VoiceGame.StepKeepsInv | src/components/VoiceGame.tsx:97-152 | Every input keeps the invariant and never lowers the best streak |
| VoiceGame.ReachableInv | src/components/VoiceGame.tsx:33-152 | Every state reachable from the first render satisfies the invariant, has a replay counter of 0, and has a best streak ≥ the current streak |
| VoiceGame.LongestStreakNeverDecreases | src/components/VoiceGame.tsx:103-107 | From any valid state, no sequence of inputs (resets included) lowers the best streak |
| VoiceGame.RunOfGuesses | src/components/VoiceGame.tsx:234-262 | Pressing guess buttons one after another applies the guesses in order |
| VoiceGame.GameProgress | src/components/VoiceGame.tsx:97-143 | After a reset and any number of guesses: the history has one entry per guess and lists, in order, whether guess i matched clip min(i, 9), since guesses after the tenth are scored against the last clip again. The index is min(guesses, 9). The results are open exactly from the tenth guess on. The replay counter is 0 |
| VoiceGame.GameScore | src/components/VoiceGame.tsx:100-121 | In such a game, of any length, the score is the number of right answers and the current streak is the trailing run of right answers |
| VoiceGame.GuessKeepsBestStreak | src/components/VoiceGame.tsx:103-107 | A guess keeps "best streak == max(an earlier best, longest run of this game)" |
| VoiceGame.GameLongestStreak | src/components/VoiceGame.tsx:103-107 | After a reset and any number of guesses, the best streak is max(the best streak before the reset, the longest run of right answers in the new game) |
| VoiceGame.AllCorrectGame | src/components/VoiceGame.tsx:97-143 | Ten right guesses in a fresh game give score 10, best streak 10, ten true marks, and the results open |
| VoiceGame.ElevenRightGuesses | src/components/VoiceGame.tsx:97-143 | Ten right guesses and one more right guess on the last clip give 11 answers, score 11 and best streak 11, with the results open. The dialog then shows 110 % and no Perfect Score badge (ResultsModal.tsx:36, :170) |
| VoiceGame.AlternatingGame | src/components/VoiceGame.tsx:97-143 | Right and wrong answers alternating, starting right, give score 5, best streak 1 and the history T,F,T,F,… |
| VoiceGame.GameSession.constructor | src/components/VoiceGame.tsx:33-41 | The first render starts with every counter at 0, an empty history and the results closed; the invariant holds |
| VoiceGame.GameSession.HandleGuess | src/components/VoiceGame.tsx:97-143 | Returns whether the guess matched the current clip; the new state is AfterGuess of the old one; the invariant is kept |
| VoiceGame.GameSession.PlayClip | src/components/VoiceGame.tsx:69-82 | The new state is AfterPlay of the old one (the counter moves only when it is non-zero); the invariant is kept |
| VoiceGame.GameSession.ResetGame | src/components/VoiceGame.tsx:145-152 | The new state is AfterReset of the old one (the best streak is kept); the invariant is kept |
| VoiceGame.GameSession.CloseResults | src/components/VoiceGame.tsx:293 | Only the results flag is cleared |
| VoiceGame.GameSession.PlayAgain | src/components/ResultsModal.tsx:89-92 | Calls reset, then close; the final state is the reset state |
| VoiceGame.GameSession.HandleKeyPress | src/components/VoiceGame.tsx:53-63 | The new state is AfterKey of the old one: h/H guesses human, a/A guesses AI, r/R plays the clip while replays remain, and any other key changes nothing |
| VoiceGame.GameSession.Results | src/components/VoiceGame.tsx:291-299 | For a valid session the dialog shows 10 points per right answer, with the emoji and message of that percentage's tier. Perfect Score shows exactly when ten answers in the history are right (which, with the extra guesses accepted after the last clip, need not mean every clip was answered right), and Streak Master exactly when the best streak is ≥ 5. The best-streak badge shows exactly when the best streak is positive. The share text reads back to the number of right answers, the ten clips, the best streak and the history |
| ResultsModal.Percentage | src/components/ResultsModal.tsx:36 | The result is 100·score/totalClips rounded half up, characterised by 2·t·p ≤ 200·s + t < 2·t·(p+1), and it is at most 100 when score ≤ totalClips |
| ResultsModal.PercentageMonotone | src/components/ResultsModal.tsx:36 | A higher score never gives a lower percentage |
| ResultsModal.PercentageOfTenClips | src/components/ResultsModal.tsx:36 | With ten clips the percentage is exactly 10·score, for every score |
| ResultsModal.TierOf | src/components/ResultsModal.tsx:38-54 | The tier chosen by the threshold chain ranks above position i exactly when the percentage reaches the i-th of the thresholds 50, 60, 70, 80, 90 |
| ResultsModal.PerfectPercentageIffAllCorrect | src/components/ResultsModal.tsx:166-175 | For 0 < totalClips < 200 the percentage is 100 exactly when every answer was right |
| ResultsModal.RankCountsThresholds | src/components/ResultsModal.tsx:38-45 | The tier chosen by the first satisfied threshold among 90/80/70/60/50 ranks as high as the number of thresholds the percentage reaches |
| ResultsModal.TierMonotone | src/components/ResultsModal.tsx:38-54 | A higher percentage never yields a lower tier |
| ResultsModal.PerformanceEmoji | src/components/ResultsModal.tsx:38-45 | The emoji chain returns the emoji of the tier TierOf(percentage) |
| ResultsModal.PerformanceMessage | src/components/ResultsModal.tsx:47-54 | The message chain returns the message of the tier TierOf(percentage) |
| ResultsModal.EmojiAndMessageAgree | src/components/ResultsModal.tsx:38-54 | Two percentages get the same emoji, and likewise the same message, exactly when they fall in the same tier. So emoji and message always name the same tier |
| ResultsModal.Achievements | src/components/ResultsModal.tsx:166-181 | Perfect Score appears iff the percentage is 100 and Streak Master iff the best streak is ≥ 5, in that order |
| ResultsModal.ShowAchievements | src/components/ResultsModal.tsx:166 | The achievements block is rendered iff at least one badge appears |
| ResultsModal.Results | src/components/ResultsModal.tsx:94-184 | The percentage shown is Percentage(score, totalClips). The emoji and message follow its tier. The best-streak badge shows iff the best streak is > 0. The achievement rules hold. The share text reads back to exactly the score, total, best streak and history |
| ResultsModal.TenClipResults | src/components/ResultsModal.tsx:166-175 | With ten clips, Perfect Score appears iff the score is 10, and a better score never lowers the tier |
| Scorecard.NatToString | src/components/ResultsModal.tsx:58 | A number prints as digits only, with no leading zero |
| Scorecard.DigitsValueOfNatToString | src/components/ResultsModal.tsx:58 | The printed digits read back to the number |
| Scorecard.ReadNatOfNatToString | src/components/ResultsModal.tsx:58 | A printed number followed by a non-digit reads back as that number plus exactly what followed it |
| Scorecard.EmojiGrid | src/components/ResultsModal.tsx:57 | The grid has one glyph per answer, in order: ✅ for a right answer and ❌ for a wrong one |
| Scorecard.ReadGridOfEmojiGrid | src/components/ResultsModal.tsx:57 | Reading the grid back gives the original answer history |
| Scorecard.SplitLinesOfJoinLines | src/components/ResultsModal.tsx:58 | Lines without a line feed, once joined by line feeds, split back into the same lines |
| Scorecard.JoinLinesWithBlank | src/components/ResultsModal.tsx:58 | The template's "\n\n" is a line feed, an empty line and a line feed |
| Scorecard.ReadStatsLineOfNumerals | src/components/ResultsModal.tsx:58 | The text "{score}/{totalClips} correct \| 🔥{longestStreak}-streak" reads back to its three numbers |
| Scorecard.SplitLinesWithBlank | src/components/ResultsModal.tsx:58 | Four lines without a line feed, joined by "\n", "\n" and "\n\n" as in the template, split back into five lines with an empty fourth one |
| Scorecard.StatsLine | src/components/ResultsModal.tsx:58 | The stats line holds no line feed and reads back to its score, total and best streak |
| Scorecard.ShareText | src/components/ResultsModal.tsx:56-60 | The share text is exactly five lines: the header, the grid, the stats line, an empty line and the footer |
| Scorecard.ReadShareTextOfShareText | src/components/ResultsModal.tsx:56-60 | Reading a share text back recovers the score, the total, the best streak and the whole history |

## Left out

- src/components/Confetti.tsx is not part of this model: random particle positions and colours, window size and a cleanup timer, all purely visual.
- `handleShare` (share sheet, clipboard, async fallback) is I/O. Only the text it shares is modelled.
- `playSound`, the toasts, the shake and confetti flags and their timers only affect presentation.
- The `isPlaying` flag and its simulated 2-second playback timer are not modelled. In the source the guess buttons and play buttons are disabled while it is set. The model lets every input happen at any time, so it covers more interleavings than the UI allows. The keyboard handler does not check the flag either way.
- The 1.5-second delay before the next clip is folded into the guess, so the model does not cover anything that happens while an advance is still pending. In the source the guess buttons are disabled only while a clip plays, and a held key repeats its keydown event. Two cases follow that the model does not capture. First, two guesses inside the window at clip index 8 queue two `prev + 1` advances (VoiceGame.tsx:138-141), so the index reaches 10: `mockClips[10]` is undefined and reading the current clip's description fails. Second, a key guess on the last clip while the results are open, followed by Play Again, lets the delayed `setShowResults(true)` (VoiceGame.tsx:136) reopen the results on an empty history. That state breaks the invariant's "results only after ten answers". The bound proved by `Step` and the invariant hold for the folded model only.
- The registration and removal of the keyboard listener. Only the key-to-handler mapping and the replay guard are kept.
- The floating-point progress-bar value and all JSX rendering.
- Loading clips from storage and real audio playback do not occur in these files. The clips are the fixed mock list.
- Percentage: does not model floating-point rounding error in `Math.round(score / totalClips * 100)`. The model computes the exactly rounded value, which is the same for the ten clips used here (`PercentageOfTenClips`). It requires totalClips > 0, where the source would produce NaN or Infinity. The source always passes 10.
- Strings are sequences of Unicode scalar values, whereas JavaScript strings are UTF-16 code units. The emoji therefore count as one character here, and the glyph-per-answer statement is about code points.
- KeyCommand: lowercases ASCII letters only, not full Unicode case mapping. This does not affect the result, because only the single letters h, a and r are compared.
- NatToString: prints plain decimal digits. JavaScript switches to exponent notation from 10^21 on, far beyond any score here.

=== FILE: results_modal.dfy ===
/** The results view shown when a game ends: the accuracy percentage, the
    performance tier (an emoji and a message picked by the same thresholds),
    the best-streak badge, the achievement badges and the share text. */
module ResultsModal {
  import Scorecard

  // ---------------------------------------------------------------------
  // Accuracy

  /** `score / totalClips * 100` rounded half up, in integer arithmetic. */
  function Percentage(score: nat, totalClips: nat): (p: nat)
    requires totalClips > 0
    ensures 2 * totalClips * p <= 200 * score + totalClips < 2 * totalClips * (p + 1)
    ensures score <= totalClips ==> p <= 100
  {
    var p := (200 * score + totalClips) / (2 * totalClips);
    assert score <= totalClips ==> 200 * score + totalClips < 2 * totalClips * 101;
    p
  }

  /** A better score never gives a lower percentage. */
  lemma PercentageMonotone(s1: nat, s2: nat, totalClips: nat)
    requires totalClips > 0 && s1 <= s2
    ensures Percentage(s1, totalClips) <= Percentage(s2, totalClips)
  {
  }

  /** With the ten clips of a game every answer is worth exactly ten points
      (also for the extra answers accepted after the last clip). */
  lemma PercentageOfTenClips(score: nat)
    ensures Percentage(score, 10) == 10 * score
  {
  }

  /** With fewer than 200 clips the percentage is 100 exactly when every answer
      was right; from 200 clips on one wrong answer still rounds to 100. */
  lemma PerfectPercentageIffAllCorrect(score: nat, totalClips: nat)
    requires 0 < totalClips < 200 && score <= totalClips
    ensures Percentage(score, totalClips) == 100 <==> score == totalClips
  {
  }

  // ---------------------------------------------------------------------
  // Performance tier

  /** The six tiers, best first. */
  datatype Tier = Expert | Excellent | Great | Good | NotBad | KeepPracticing

  /** The percentage thresholds of the five upper tiers, ascending. */
  const Thresholds: seq<int> := [50, 60, 70, 80, 90]

  /** Position of a tier from the bottom: 0 for the fallback, 5 for the best. */
  function Rank(t: Tier): nat
  {
    match t
    case KeepPracticing => 0
    case NotBad => 1
    case Good => 2
    case Great => 3
    case Excellent => 4
    case Expert => 5
  }

  /** The first satisfied threshold among 90, 80, 70, 60, 50: the tier ranks
      above position i exactly when the percentage reaches the i-th threshold. */
  function TierOf(percentage: int): (t: Tier)
    ensures forall i :: 0 <= i < |Thresholds| ==> (percentage >= Thresholds[i] <==> Rank(t) > i)
  {
    if percentage >= 90 then Expert
    else if percentage >= 80 then Excellent
    else if percentage >= 70 then Great
    else if percentage >= 60 then Good
    else if percentage >= 50 then NotBad
    else KeepPracticing
  }

  /** How many of the thresholds `percentage` reaches. */
  function ThresholdsMet(ts: seq<int>, percentage: int): nat
  {
    if ts == [] then 0 else (if percentage >= ts[0] then 1 else 0) + ThresholdsMet(ts[1..], percentage)
  }

  /** The tier's rank is the number of thresholds met: the tier chain is the
      same as counting thresholds. */
  lemma RankCountsThresholds(percentage: int)
    ensures Rank(TierOf(percentage)) == ThresholdsMet(Thresholds, percentage)
  {
    var p := percentage;
    assert [90][1..] == [];
    assert ThresholdsMet([90], p) == (if p >= 90 then 1 else 0);
    assert [80, 90][1..] == [90];
    assert ThresholdsMet([80, 90], p) == (if p >= 80 then 1 else 0) + ThresholdsMet([90], p);
    assert [70, 80, 90][1..] == [80, 90];
    assert ThresholdsMet([70, 80, 90], p) == (if p >= 70 then 1 else 0) + ThresholdsMet([80, 90], p);
    assert [60, 70, 80, 90][1..] == [70, 80, 90];
    assert ThresholdsMet([60, 70, 80, 90], p) == (if p >= 60 then 1 else 0) + ThresholdsMet([70, 80, 90], p);
    assert Thresholds[1..] == [60, 70, 80, 90];
  }

  /** A higher percentage never yields a lower tier. */
  lemma TierMonotone(p: int, q: int)
    requires p <= q
    ensures Rank(TierOf(p)) <= Rank(TierOf(q))
  {
  }

  function TierEmoji(t: Tier): string
  {
    match t
    case Expert => "\U{1F3AF}"          // direct hit
    case Excellent => "\U{1F525}"       // fire
    case Great => "\U{1F44F}"           // clapping hands
    case Good => "\U{1F44D}"            // thumbs up
    case NotBad => "\U{1F60A}"          // smiling face with smiling eyes
    case KeepPracticing => "\U{1F914}"  // thinking face
  }

  function TierMessage(t: Tier): string
  {
    match t
    case Expert => "AI Detection Expert!"
    case Excellent => "Excellent ear for voices!"
    case Great => "Great voice detection!"
    case Good => "Good job identifying voices!"
    case NotBad => "Not bad! Practice makes perfect."
    case KeepPracticing => "Keep practicing to improve!"
  }

  /** The emoji of the results title, chosen by its own threshold chain. */
  function PerformanceEmoji(percentage: int): (e: string)
    ensures e == TierEmoji(TierOf(percentage))
  {
    if percentage >= 90 then "\U{1F3AF}"
    else if percentage >= 80 then "\U{1F525}"
    else if percentage >= 70 then "\U{1F44F}"
    else if percentage >= 60 then "\U{1F44D}"
    else if percentage >= 50 then "\U{1F60A}"
    else "\U{1F914}"
  }

  /** The message under the results title, chosen by its own threshold chain. */
  function PerformanceMessage(percentage: int): (m: string)
    ensures m == TierMessage(TierOf(percentage))
  {
    if percentage >= 90 then "AI Detection Expert!"
    else if percentage >= 80 then "Excellent ear for voices!"
    else if percentage >= 70 then "Great voice detection!"
    else if percentage >= 60 then "Good job identifying voices!"
    else if percentage >= 50 then "Not bad! Practice makes perfect."
    else "Keep practicing to improve!"
  }

  /** Emoji and message always come from the same tier: each of them names its
      tier uniquely, so two percentages with the same emoji get the same message. */
  lemma EmojiAndMessageAgree(p: int, q: int)
    ensures PerformanceEmoji(p) == PerformanceEmoji(q) <==> TierOf(p) == TierOf(q)
    ensures PerformanceMessage(p) == PerformanceMessage(q) <==> TierOf(p) == TierOf(q)
  {
    var e, m := PerformanceEmoji(p), PerformanceMessage(p);
    if TierOf(p) != TierOf(q) {
      assert e[0] != PerformanceEmoji(q)[0];
      assert m[..5] != PerformanceMessage(q)[..5] || m != PerformanceMessage(q);
    }
  }

  // ---------------------------------------------------------------------
  // Badges

  datatype Achievement = PerfectScore | StreakMaster

  /** The achievement badges in display order. */
  function Achievements(percentage: int, longestStreak: nat): (a: seq<Achievement>)
    ensures PerfectScore in a <==> percentage == 100
    ensures StreakMaster in a <==> longestStreak >= 5
    ensures |a| == 2 ==> a == [PerfectScore, StreakMaster]
    ensures |a| <= 2
  {
    (if percentage == 100 then [PerfectScore] else []) + (if longestStreak >= 5 then [StreakMaster] else [])
  }

  /** The condition under which the "Achievements Unlocked!" block is rendered. */
  function ShowAchievements(percentage: int, longestStreak: nat): (shown: bool)
    ensures shown <==> |Achievements(percentage, longestStreak)| > 0
  {
    percentage == 100 || longestStreak >= 5
  }

  /** Everything the results dialog displays for one finished game. */
  datatype View = View(
    emoji: string,
    message: string,
    percentage: nat,
    showBestStreak: bool,
    achievementsShown: bool,
    achievements: seq<Achievement>,
    shareText: string)

  function Results(score: nat, totalClips: nat, longestStreak: nat, gameHistory: seq<bool>): (v: View)
    requires totalClips > 0
    ensures v.percentage == Percentage(score, totalClips)
    ensures score <= totalClips ==> v.percentage <= 100
    ensures v.emoji == TierEmoji(TierOf(v.percentage)) && v.message == TierMessage(TierOf(v.percentage))
    ensures v.showBestStreak <==> longestStreak > 0
    ensures v.achievementsShown <==> |v.achievements| > 0
    ensures PerfectScore in v.achievements <==> v.percentage == 100
    ensures StreakMaster in v.achievements <==> longestStreak >= 5
    ensures Scorecard.ReadShareText(v.shareText) == Scorecard.Some(Scorecard.Summary(score, totalClips, longestStreak, gameHistory))
  {
    var p := Percentage(score, totalClips);
    Scorecard.ReadShareTextOfShareText(score, totalClips, longestStreak, gameHistory);
    View(
      PerformanceEmoji(p),
      PerformanceMessage(p),
      p,
      longestStreak > 0,
      ShowAchievements(p, longestStreak),
      Achievements(p, longestStreak),
      Scorecard.ShareText(score, totalClips, longestStreak, gameHistory))
  }

  /** With the game's ten clips the Perfect Score badge appears exactly when all
      ten answers were right, and a better score never lowers the tier. */
  lemma TenClipResults(score: nat, better: nat, longestStreak: nat)
    requires score <= better <= 10
    ensures PerfectScore in Results(score, 10, longestStreak, []).achievements <==> score == 10
    ensures Rank(TierOf(Results(score, 10, longestStreak, []).percentage))
         <= Rank(TierOf(Results(better, 10, longestStreak, []).percentage))
  {
    PerfectPercentageIffAllCorrect(score, 10);
    PercentageMonotone(score, better, 10);
    TierMonotone(Percentage(score, 10), Percentage(better, 10));
  }
}

=== FILE: scorecard.dfy ===
/** The plain-text scorecard that the results view offers for sharing:
    a header line, one glyph per answer, the score and streak line and a footer.
    Besides the text itself this module holds a reader for it, so that the
    layout can be stated as a round trip: reading the scorecard back yields
    exactly the numbers and the answer history it was made from. */
module Scorecard {

  datatype Option<T> = None | Some(value: T)

  /** What a scorecard carries. */
  datatype Summary = Summary(score: nat, totalClips: nat, longestStreak: nat, history: seq<bool>)

  // ---------------------------------------------------------------------
  // Decimal numerals, as a template literal prints a non-negative integer

  predicate IsDigit(c: char) { '0' <= c <= '9' }

  predicate AllDigits(s: string) { forall i :: 0 <= i < |s| ==> IsDigit(s[i]) }

  function DigitChar(d: nat): (c: char)
    requires d < 10
    ensures IsDigit(c)
  {
    ['0', '1', '2', '3', '4', '5', '6', '7', '8', '9'][d]
  }

  function DigitValue(c: char): (d: nat)
    requires IsDigit(c)
    ensures d < 10
  {
    (c as int - '0' as int) as nat
  }

  lemma DigitValueOfChar(d: nat)
    requires d < 10
    ensures DigitValue(DigitChar(d)) == d
  {
  }

  /** The decimal numeral of `n`: digits only, no leading zero. */
  function NatToString(n: nat): (s: string)
    ensures |s| >= 1 && AllDigits(s)
    ensures |s| > 1 ==> s[0] != '0'
    decreases n
  {
    if n < 10 then [DigitChar(n)] else NatToString(n / 10) + [DigitChar(n % 10)]
  }

  /** The value of a numeral, read from its last digit backwards. */
  function DigitsValue(s: string): nat
    requires AllDigits(s)
  {
    if s == [] then 0 else 10 * DigitsValue(s[..|s| - 1]) + DigitValue(s[|s| - 1])
  }

  lemma {:induction false} DigitsValueOfNatToString(n: nat)
    ensures DigitsValue(NatToString(n)) == n
    decreases n
  {
    var s := NatToString(n);
    if n < 10 {
      DigitValueOfChar(n);
    } else {
      DigitsValueOfNatToString(n / 10);
      assert s[..|s| - 1] == NatToString(n / 10);
      DigitValueOfChar(n % 10);
    }
  }

  /** Number of leading digits of `s`. */
  function DigitPrefixLength(s: string): (k: nat)
    ensures k <= |s| && AllDigits(s[..k])
    ensures k < |s| ==> !IsDigit(s[k])
  {
    if s == [] || !IsDigit(s[0]) then 0
    else
      var k := 1 + DigitPrefixLength(s[1..]);
      assert s[..k] == [s[0]] + s[1..][..k - 1];
      k
  }

  /** Reads the longest non-empty run of leading digits as a number and returns
      it with the rest of the text; fails when the text does not start with a digit. */
  function ReadNat(s: string): (r: Option<(nat, string)>)
    ensures r.Some? <==> |s| > 0 && IsDigit(s[0])
  {
    var k := DigitPrefixLength(s);
    if k == 0 then None else Some((DigitsValue(s[..k]), s[k..]))
  }

  lemma {:induction false} DigitPrefixOfDigits(digits: string, rest: string)
    requires AllDigits(digits)
    requires rest == [] || !IsDigit(rest[0])
    ensures DigitPrefixLength(digits + rest) == |digits|
    decreases |digits|
  {
    if digits != [] {
      assert (digits + rest)[1..] == digits[1..] + rest;
      DigitPrefixOfDigits(digits[1..], rest);
    }
  }

  /** Reading a numeral back that is followed by a non-digit gives its number
      and exactly what followed it. */
  lemma ReadNatOfNatToString(n: nat, rest: string)
    requires rest == [] || !IsDigit(rest[0])
    ensures ReadNat(NatToString(n) + rest) == Some((n, rest))
  {
    var s := NatToString(n) + rest;
    DigitPrefixOfDigits(NatToString(n), rest);
    assert s[..|NatToString(n)|] == NatToString(n);
    assert s[|NatToString(n)|..] == rest;
    DigitsValueOfNatToString(n);
  }

  // ---------------------------------------------------------------------
  // Lines

  /** Splits text at every line feed, like `text.split("\n")`: a text with k
      line feeds gives k + 1 lines. */
  function SplitLines(s: string): (lines: seq<string>)
    ensures |lines| >= 1
  {
    if s == [] then [[]]
    else if s[0] == '\n' then [[]] + SplitLines(s[1..])
    else
      var rest := SplitLines(s[1..]);
      [[s[0]] + rest[0]] + rest[1..]
  }

  lemma {:induction false} SplitLinesOfLine(a: string)
    requires '\n' !in a
    ensures SplitLines(a) == [a]
    decreases |a|
  {
    if a != [] {
      assert a[0] != '\n';
      assert '\n' !in a[1..] by {
        forall i | 0 <= i < |a[1..]| ensures a[1..][i] != '\n' { assert a[1..][i] == a[i + 1]; }
      }
      SplitLinesOfLine(a[1..]);
      assert [a[0]] + a[1..] == a;
    }
  }

  /** Splitting a line, a line feed and more text gives that line followed by
      the lines of the rest. */
  lemma {:induction false} SplitLinesOfJoin(a: string, b: string)
    requires '\n' !in a
    ensures SplitLines(a + "\n" + b) == [a] + SplitLines(b)
    decreases |a|
  {
    var s := a + "\n" + b;
    if a == [] {
      assert s == "\n" + b;
      assert s[1..] == b;
    } else {
      assert a[0] != '\n';
      assert '\n' !in a[1..] by {
        forall i | 0 <= i < |a[1..]| ensures a[1..][i] != '\n' { assert a[1..][i] == a[i + 1]; }
      }
      assert s[0] == a[0];
      assert s[1..] == a[1..] + "\n" + b;
      SplitLinesOfJoin(a[1..], b);
      assert [a[0]] + a[1..] == a;
    }
  }

  // ---------------------------------------------------------------------
  // The answer grid

  const Correct: char := '\U{2705}'  // white heavy check mark
  const Wrong: char := '\U{274C}'    // cross mark

  function Glyph(correct: bool): char
  {
    if correct then Correct else Wrong
  }

  /** One glyph per answer, in answer order. */
  function EmojiGrid(history: seq<bool>): (grid: string)
    ensures |grid| == |history|
    ensures forall i :: 0 <= i < |history| ==> grid[i] == Glyph(history[i])
    ensures '\n' !in grid
  {
    if history == [] then []
    else [Glyph(history[0])] + EmojiGrid(history[1..])
  }

  /** Reads a grid back; fails on any character that is not one of the two glyphs. */
  function ReadGrid(grid: string): (r: Option<seq<bool>>)
    ensures r.Some? ==> |r.value| == |grid|
  {
    if grid == [] then Some([])
    else if grid[0] != Correct && grid[0] != Wrong then None
    else match ReadGrid(grid[1..])
      case None => None
      case Some(rest) => Some([grid[0] == Correct] + rest)
  }

  lemma {:induction false} ReadGridOfEmojiGrid(history: seq<bool>)
    ensures ReadGrid(EmojiGrid(history)) == Some(history)
    decreases |history|
  {
    if history != [] {
      var grid := EmojiGrid(history);
      assert grid[1..] == EmojiGrid(history[1..]);
      ReadGridOfEmojiGrid(history[1..]);
      assert [history[0]] + history[1..] == history;
    }
  }

  // ---------------------------------------------------------------------
  // The share text

  const Header: string := "\U{1F5E3}\U{FE0F} Guess the Voice Results"  // speaking head, variation selector
  const Footer: string := "Can you beat my score? Try it yourself!"
  const Separator: string := "/"
  const CorrectLabel: string := " correct | \U{1F525}"  // fire
  const StreakLabel: string := "-streak"


  /** The text after `prefix`, when `s` starts with it. */
  function SkipPrefix(prefix: string, s: string): (r: Option<string>)
    ensures r.Some? <==> prefix <= s
    ensures r.Some? ==> s == prefix + r.value
  {
    if prefix <= s then Some(s[|prefix|..]) else None
  }

  lemma SkipPrefixOfJoin(prefix: string, rest: string)
    ensures SkipPrefix(prefix, prefix + rest) == Some(rest)
  {
    assert prefix <= prefix + rest;
    assert (prefix + rest)[|prefix|..] == rest;
  }

  /** Reads `{a}/{b} correct | 🔥{c}-streak` back into its three numbers. */
  function ReadStatsLine(line: string): Option<(nat, nat, nat)>
  {
    match ReadNat(line)
    case None => None
    case Some((score, r1)) =>
      match SkipPrefix(Separator, r1)
      case None => None
      case Some(r2) =>
        match ReadNat(r2)
        case None => None
        case Some((total, r3)) =>
          match SkipPrefix(CorrectLabel, r3)
          case None => None
          case Some(r4) =>
            match ReadNat(r4)
            case None => None
            case Some((streak, r5)) =>
              if r5 != StreakLabel then None else Some((score, total, streak))
  }

  /** Reads a whole share text back; fails unless it has exactly the five lines
      header, grid, stats, empty line and footer. */
  function ReadShareText(text: string): Option<Summary>
  {
    var lines := SplitLines(text);
    if |lines| != 5 || lines[0] != Header || lines[3] != [] || lines[4] != Footer then None
    else match (ReadGrid(lines[1]), ReadStatsLine(lines[2]))
      case (Some(history), Some((score, total, streak))) => Some(Summary(score, total, streak, history))
      case _ => None
  }

  lemma NoLineFeedInNumeral(n: nat)
    ensures '\n' !in NatToString(n)
  {
    var s := NatToString(n);
    forall i | 0 <= i < |s| ensures s[i] != '\n' {
      assert IsDigit(s[i]);
    }
  }

  lemma Reassociate(a: string, b: string, c: string, d: string, e: string, f: string)
    ensures a + b + c + d + e + f == a + (b + (c + (d + (e + f))))
  {
  }

  /** Lines joined with a line feed between each two. */
  function JoinLines(lines: seq<string>): string
    requires |lines| >= 1
  {
    if |lines| == 1 then lines[0] else lines[0] + "\n" + JoinLines(lines[1..])
  }

  /** Splitting undoes joining, for lines that hold no line feed. */
  lemma {:induction false} SplitLinesOfJoinLines(lines: seq<string>)
    requires |lines| >= 1
    requires forall i :: 0 <= i < |lines| ==> '\n' !in lines[i]
    ensures SplitLines(JoinLines(lines)) == lines
    decreases |lines|
  {
    if |lines| == 1 {
      SplitLinesOfLine(lines[0]);
    } else {
      var rest := lines[1..];
      assert forall i :: 0 <= i < |rest| ==> '\n' !in rest[i] by {
        forall i | 0 <= i < |rest| ensures '\n' !in rest[i] { assert rest[i] == lines[i + 1]; }
      }
      SplitLinesOfJoinLines(rest);
      SplitLinesOfJoin(lines[0], JoinLines(rest));
      assert [lines[0]] + rest == lines;
    }
  }

  lemma HeaderAndFooterAreLines()
    ensures '\n' !in Header && '\n' !in Footer
  {
  }

  /** Three lines, an empty line and a last line, joined. */
  lemma JoinLinesWithBlank(a: string, b: string, c: string, e: string)
    ensures JoinLines([a, b, c, "", e]) == a + "\n" + b + "\n" + c + "\n\n" + e
  {
    var lines := [a, b, c, "", e];
    assert lines[1..] == [b, c, "", e] && lines[1..][1..] == [c, "", e];
    assert lines[1..][1..][1..] == ["", e] && lines[1..][1..][1..][1..] == [e];
    assert ["", e][1..] == [e];
    assert JoinLines([e]) == e;
    var j3 := JoinLines(["", e]);
    assert j3 == "" + "\n" + e;
    assert j3 == "\n" + e;
    var j2 := JoinLines([c, "", e]);
    assert j2 == c + "\n" + j3;
    var j1 := JoinLines([b, c, "", e]);
    assert j1 == b + "\n" + j2;
    assert JoinLines(lines) == a + "\n" + j1;
    assert "\n" + ("\n" + e) == "\n\n" + e;
  }

  /** Three lines, an empty line and a last line, joined as the share text joins
      them, split back into those five lines. */
  lemma SplitLinesWithBlank(a: string, b: string, c: string, e: string)
    requires '\n' !in a && '\n' !in b && '\n' !in c && '\n' !in e
    ensures SplitLines(a + "\n" + b + "\n" + c + "\n\n" + e) == [a, b, c, "", e]
  {
    JoinLinesWithBlank(a, b, c, e);
    SplitLinesOfJoinLines([a, b, c, "", e]);
  }

  lemma LabelsAreLineFree()
    ensures '\n' !in Separator && '\n' !in CorrectLabel && '\n' !in StreakLabel
  {
  }

  lemma NoLineFeedInSix(a: string, b: string, c: string, d: string, e: string, f: string)
    requires '\n' !in a && '\n' !in b && '\n' !in c && '\n' !in d && '\n' !in e && '\n' !in f
    ensures '\n' !in a + b + c + d + e + f
  {
  }

  /** The stats line reads back to its three numbers. */
  lemma ReadStatsLineOfNumerals(score: nat, totalClips: nat, longestStreak: nat)
    ensures ReadStatsLine(NatToString(score) + Separator + NatToString(totalClips) + CorrectLabel
                          + NatToString(longestStreak) + StreakLabel)
         == Some((score, totalClips, longestStreak))
  {
    var r4 := NatToString(longestStreak) + StreakLabel;
    var r3 := CorrectLabel + r4;
    var r2 := NatToString(totalClips) + r3;
    var r1 := Separator + r2;
    Reassociate(NatToString(score), Separator, NatToString(totalClips), CorrectLabel, NatToString(longestStreak), StreakLabel);
    assert r1[0] == '/' && r3[0] == ' ' && StreakLabel[0] == '-';
    ReadNatOfNatToString(score, r1);
    SkipPrefixOfJoin(Separator, r2);
    ReadNatOfNatToString(totalClips, r3);
    SkipPrefixOfJoin(CorrectLabel, r4);
    ReadNatOfNatToString(longestStreak, StreakLabel);
  }

  /** The stats line is a single line and reads back to its three numbers. */
  lemma StatsLineFacts(score: nat, totalClips: nat, longestStreak: nat, line: string)
    requires line == NatToString(score) + Separator + NatToString(totalClips) + CorrectLabel
                     + NatToString(longestStreak) + StreakLabel
    ensures '\n' !in line
    ensures ReadStatsLine(line) == Some((score, totalClips, longestStreak))
  {
    NoLineFeedInNumeral(score);
    NoLineFeedInNumeral(totalClips);
    NoLineFeedInNumeral(longestStreak);
    LabelsAreLineFree();
    NoLineFeedInSix(NatToString(score), Separator, NatToString(totalClips), CorrectLabel, NatToString(longestStreak), StreakLabel);
    ReadStatsLineOfNumerals(score, totalClips, longestStreak);
  }

  /** `{score}/{totalClips} correct | 🔥{longestStreak}-streak`: a single line
      that reads back to its three numbers. */
  function StatsLine(score: nat, totalClips: nat, longestStreak: nat): (line: string)
    ensures '\n' !in line
    ensures ReadStatsLine(line) == Some((score, totalClips, longestStreak))
  {
    var line := NatToString(score) + Separator + NatToString(totalClips) + CorrectLabel + NatToString(longestStreak) + StreakLabel;
    StatsLineFacts(score, totalClips, longestStreak, line);
    line
  }

  /** The text the share button hands to the share sheet or the clipboard: exactly
      five lines, the header, the grid, the stats line, an empty line and the footer. */
  function ShareText(score: nat, totalClips: nat, longestStreak: nat, history: seq<bool>): (text: string)
    ensures SplitLines(text) == [Header, EmojiGrid(history), StatsLine(score, totalClips, longestStreak), "", Footer]
  {
    HeaderAndFooterAreLines();
    SplitLinesWithBlank(Header, EmojiGrid(history), StatsLine(score, totalClips, longestStreak), Footer);
    Header + "\n" + EmojiGrid(history) + "\n" + StatsLine(score, totalClips, longestStreak) + "\n\n" + Footer
  }

  /** Round trip: reading a share text back recovers the score, the total,
      the longest streak and the whole answer history. */
  lemma ReadShareTextOfShareText(score: nat, totalClips: nat, longestStreak: nat, history: seq<bool>)
    ensures ReadShareText(ShareText(score, totalClips, longestStreak, history))
         == Some(Summary(score, totalClips, longestStreak, history))
  {
    ReadGridOfEmojiGrid(history);
  }
}

=== FILE: voice_game.dfy ===
/** The game screen: ten fixed clips, each to be judged human or AI. The
    component keeps its score, streaks, answer history, replay counter and
    results flag in mutable state that its handlers update one setter at a
    time. Here that state is the class GameSession; the value Session and the
    functions After* describe each handler's effect on it, and the lemmas
    prove what every reachable state satisfies. */
module VoiceGame {
  import ResultsModal
  import Scorecard

  // ---------------------------------------------------------------------
  // Clips and constants

  datatype Clip = Clip(id: string, url: string, isAI: bool, description: string)

  /** The hard-coded demo clips: human and AI voices alternate, human first. */
  const MockClips: seq<Clip> := [
    Clip("1", "#", false, "Professional narrator"),
    Clip("2", "#", true, "AI-generated voice"),
    Clip("3", "#", false, "Podcast host"),
    Clip("4", "#", true, "Synthetic speech"),
    Clip("5", "#", false, "Voice actor"),
    Clip("6", "#", true, "Text-to-speech"),
    Clip("7", "#", false, "Radio presenter"),
    Clip("8", "#", true, "AI clone voice"),
    Clip("9", "#", false, "Audiobook reader"),
    Clip("10", "#", true, "Generated audio")
  ]

  const TotalClips: nat := 10
  const MaxReplays: nat := 3

  lemma MockClipsShape()
    ensures |MockClips| == TotalClips
    ensures forall i, j :: 0 <= i < j < |MockClips| ==> MockClips[i].id != MockClips[j].id
    ensures forall i :: 0 <= i < |MockClips| ==> MockClips[i].isAI == (i % 2 == 1)
  {
  }

  function Max(a: nat, b: nat): nat { if a < b then b else a }
  function Min(a: nat, b: nat): nat { if a < b then a else b }

  // ---------------------------------------------------------------------
  // Facts about an answer history

  /** Number of correct answers, counted from the end. */
  function CountTrue(h: seq<bool>): (n: nat)
    ensures n <= |h|
  {
    if h == [] then 0 else CountTrue(h[..|h| - 1]) + (if h[|h| - 1] then 1 else 0)
  }

  /** Length of the run of correct answers that ends the history. */
  function TrailingRun(h: seq<bool>): (n: nat)
    ensures n <= |h|
  {
    if h == [] || !h[|h| - 1] then 0 else TrailingRun(h[..|h| - 1]) + 1
  }

  /** Length of the longest run of correct answers anywhere in the history. */
  function LongestRun(h: seq<bool>): (n: nat)
    ensures TrailingRun(h) <= n <= |h|
  {
    if h == [] then 0 else Max(LongestRun(h[..|h| - 1]), TrailingRun(h))
  }

  predicate AllTrue(h: seq<bool>) { forall i :: 0 <= i < |h| ==> h[i] }

  /** `h` holds `n` correct answers in a row from position `i`. */
  predicate RunAt(h: seq<bool>, i: nat, n: nat) { i + n <= |h| && AllTrue(h[i..i + n]) }

  /** How CountTrue, TrailingRun and LongestRun change when one answer is appended. */
  lemma AppendAnswer(h: seq<bool>, b: bool)
    ensures CountTrue(h + [b]) == CountTrue(h) + (if b then 1 else 0)
    ensures TrailingRun(h + [b]) == (if b then TrailingRun(h) + 1 else 0)
    ensures LongestRun(h + [b]) == Max(LongestRun(h), TrailingRun(h + [b]))
  {
    assert (h + [b])[..|h + [b]| - 1] == h;
  }

  /** CountTrue is the number of occurrences of `true`. */
  lemma {:induction false} CountTrueIsMultiplicity(h: seq<bool>)
    ensures CountTrue(h) == multiset(h)[true]
    decreases |h|
  {
    if h != [] {
      var init := h[..|h| - 1];
      CountTrueIsMultiplicity(init);
      assert h == init + [h[|h| - 1]];
      assert multiset(h) == multiset(init) + multiset{h[|h| - 1]};
    }
  }

  /** TrailingRun is the length of the all-correct suffix that cannot be extended. */
  lemma {:induction false} TrailingRunIsMaximalSuffix(h: seq<bool>)
    ensures AllTrue(h[|h| - TrailingRun(h)..])
    ensures TrailingRun(h) < |h| ==> !h[|h| - 1 - TrailingRun(h)]
    decreases |h|
  {
    if h != [] && h[|h| - 1] {
      var init := h[..|h| - 1];
      TrailingRunIsMaximalSuffix(init);
      var k := TrailingRun(init);
      assert h[|h| - TrailingRun(h)..] == init[|init| - k..] + [h[|h| - 1]];
      if TrailingRun(h) < |h| {
        assert h[|h| - 1 - TrailingRun(h)] == init[|init| - 1 - k];
      }
    }
  }

  /** Every all-correct window ending at `j` is no longer than the trailing run of `h[..j]`. */
  lemma {:induction false} WindowWithinTrailingRun(h: seq<bool>, i: nat, j: nat)
    requires i <= j <= |h| && AllTrue(h[i..j])
    ensures j - i <= TrailingRun(h[..j])
    decreases j - i
  {
    if i < j {
      var w := h[..j];
      assert w[j - 1] == h[i..j][j - 1 - i];
      assert w[..j - 1] == h[..j - 1];
      var shorter, window := h[i..j - 1], h[i..j];
      assert AllTrue(shorter) by {
        forall k | 0 <= k < |shorter| ensures shorter[k] { assert shorter[k] == window[k]; }
      }
      WindowWithinTrailingRun(h, i, j - 1);
    }
  }

  /** LongestRun bounds every all-correct window, and some window attains it. */
  lemma {:induction false} LongestRunIsLongestWindow(h: seq<bool>)
    ensures forall i, j :: 0 <= i <= j <= |h| && AllTrue(h[i..j]) ==> j - i <= LongestRun(h)
    ensures exists i: nat :: RunAt(h, i, LongestRun(h))
    decreases |h|
  {
    if h == [] {
      assert RunAt(h, 0, 0);
    } else {
      var init := h[..|h| - 1];
      LongestRunIsLongestWindow(init);
      forall i, j | 0 <= i <= j <= |h| && AllTrue(h[i..j]) ensures j - i <= LongestRun(h) {
        if j == |h| {
          WindowWithinTrailingRun(h, i, j);
          assert h[..j] == h;
        } else {
          assert h[i..j] == init[i..j];
        }
      }
      var n := LongestRun(h);
      if n == TrailingRun(h) {
        TrailingRunIsMaximalSuffix(h);
        assert h[|h| - n..|h| - n + n] == h[|h| - n..];
        assert RunAt(h, |h| - n, n);
      } else {
        var i: nat :| RunAt(init, i, LongestRun(init));
        assert h[i..i + n] == init[i..i + n];
        assert RunAt(h, i, n);
      }
    }
  }

  // ---------------------------------------------------------------------
  // The session state and the effect of each handler on it

  /** The component's game state (the toast, shake, confetti and playing
      flags are presentation only and not part of it). */
  datatype Session = Session(
    clipIndex: nat,
    score: nat,
    currentStreak: nat,
    longestStreak: nat,
    history: seq<bool>,
    replaysUsed: nat,
    showResults: bool)

  /** The state on first render. */
  function Initial(): Session
  {
    Session(0, 0, 0, 0, [], 0, false)
  }

  /** A guess is right when it names the current clip's label, which for these
      clips means guessing AI exactly on the odd positions. */
  function IsCorrect(clipIndex: nat, guessedAI: bool): (correct: bool)
    requires clipIndex < TotalClips
    ensures correct <==> (guessedAI <==> clipIndex % 2 == 1)
  {
    MockClipsShape();
    guessedAI == MockClips[clipIndex].isAI
  }

  /** handleGuess, with the delayed advance folded into the same step. */
  function AfterGuess(s: Session, guessedAI: bool): (t: Session)
    requires s.clipIndex < TotalClips
    ensures t.history == s.history + [IsCorrect(s.clipIndex, guessedAI)]
    ensures IsCorrect(s.clipIndex, guessedAI) ==>
      t.score == s.score + 1 && t.currentStreak == s.currentStreak + 1 &&
      t.longestStreak == Max(s.longestStreak, s.currentStreak + 1)
    ensures !IsCorrect(s.clipIndex, guessedAI) ==>
      t.score == s.score && t.currentStreak == 0 && t.longestStreak == s.longestStreak
    ensures s.clipIndex + 1 < TotalClips ==>
      t.clipIndex == s.clipIndex + 1 && t.replaysUsed == 0 && t.showResults == s.showResults
    ensures s.clipIndex + 1 >= TotalClips ==>
      t.clipIndex == s.clipIndex && t.replaysUsed == s.replaysUsed && t.showResults
    ensures t.clipIndex < TotalClips
  {
    var scored :=
      if IsCorrect(s.clipIndex, guessedAI) then
        var newStreak := s.currentStreak + 1;
        s.(score := s.score + 1, currentStreak := newStreak,
           longestStreak := Max(s.longestStreak, newStreak), history := s.history + [true])
      else
        s.(currentStreak := 0, history := s.history + [false]);
    if s.clipIndex + 1 >= TotalClips then scored.(showResults := true)
    else scored.(clipIndex := s.clipIndex + 1, replaysUsed := 0)
  }

  /** playClip's effect on the replay counter: the counter moves only when it
      is already non-zero, so a counter at zero stays at zero. */
  function AfterPlay(s: Session): (t: Session)
    ensures t.replaysUsed == 0 <==> s.replaysUsed == 0
    ensures s.replaysUsed > 0 ==> t.replaysUsed == s.replaysUsed + 1
    ensures t.(replaysUsed := s.replaysUsed) == s
  {
    if s.replaysUsed == 0 then s else s.(replaysUsed := s.replaysUsed + 1)
  }

  /** resetGame: clears everything except the longest streak. */
  function AfterReset(s: Session): (t: Session)
    ensures t.clipIndex == 0 && t.score == 0 && t.currentStreak == 0
    ensures t.history == [] && t.replaysUsed == 0 && !t.showResults
    ensures t.longestStreak == s.longestStreak
  {
    s.(clipIndex := 0, score := 0, currentStreak := 0, history := [], replaysUsed := 0, showResults := false)
  }

  /** The dialog's onClose: hides the results and nothing else, so every
      state the invariant allows stays allowed. */
  function AfterClose(s: Session): (t: Session)
    ensures !t.showResults
    ensures t.(showResults := s.showResults) == s
    ensures Inv(s) ==> Inv(t)
  {
    s.(showResults := false)
  }

  /** Play Again: onPlayAgain (resetGame) first, then onClose. */
  function AfterPlayAgain(s: Session): (t: Session)
    ensures t == AfterReset(s)
  {
    AfterClose(AfterReset(s))
  }

  // ---------------------------------------------------------------------
  // Keyboard

  datatype Command = GuessCommand(guessedAI: bool) | PlayCommand | NoCommand

  function LowerAscii(c: char): char
  {
    if 'A' <= c <= 'Z' then (c as int + 32) as char else c
  }

  function ToLower(key: string): (r: string)
    ensures |r| == |key|
  {
    seq(|key|, i requires 0 <= i < |key| => LowerAscii(key[i]))
  }

  /** The key handler: H guesses human, A guesses AI, R plays the clip while
      replays remain; every other key does nothing. */
  function KeyCommand(key: string, replaysUsed: nat): (c: Command)
    ensures c == GuessCommand(false) <==> key == "h" || key == "H"
    ensures c == GuessCommand(true) <==> key == "a" || key == "A"
    ensures c == PlayCommand <==> (key == "r" || key == "R") && replaysUsed < MaxReplays
  {
    var k := ToLower(key);
    assert ToLower("h") == ToLower("H") == "h";
    assert ToLower("a") == ToLower("A") == "a";
    assert ToLower("r") == ToLower("R") == "r";
    assert |k| == 1 ==> key == [key[0]] && k[0] == LowerAscii(key[0]);
    if k == "h" then GuessCommand(false)
    else if k == "a" then GuessCommand(true)
    else if k == "r" && replaysUsed < MaxReplays then PlayCommand
    else NoCommand
  }

  /** The key handler's effect on the state. */
  function AfterKey(s: Session, key: string): (t: Session)
    requires s.clipIndex < TotalClips
    ensures key == "h" || key == "H" ==> t == AfterGuess(s, false)
    ensures key == "a" || key == "A" ==> t == AfterGuess(s, true)
    ensures key == "r" || key == "R" ==> t == (if s.replaysUsed < MaxReplays then AfterPlay(s) else s)
    ensures key !in {"h", "H", "a", "A", "r", "R"} ==> t == s
  {
    match KeyCommand(key, s.replaysUsed)
    case GuessCommand(g) => AfterGuess(s, g)
    case PlayCommand => AfterPlay(s)
    case NoCommand => s
  }

  // ---------------------------------------------------------------------
  // Every input the screen reacts to, and runs of them

  datatype Event =
    | Guess(guessedAI: bool)  // a guess button
    | PlayButton              // the large play button
    | ReplayButton            // the replay button, disabled once the replays are used up
    | KeyPress(key: string)
    | CloseResults
    | PlayAgain

  function Step(s: Session, e: Event): (t: Session)
    requires s.clipIndex < TotalClips
    ensures t.clipIndex < TotalClips
  {
    match e
    case Guess(g) => AfterGuess(s, g)
    case PlayButton => AfterPlay(s)
    case ReplayButton => if s.replaysUsed < MaxReplays then AfterPlay(s) else s
    case KeyPress(k) => AfterKey(s, k)
    case CloseResults => AfterClose(s)
    case PlayAgain => AfterPlayAgain(s)
  }

  function Run(s: Session, events: seq<Event>): (t: Session)
    requires s.clipIndex < TotalClips
    ensures t.clipIndex < TotalClips
  {
    if events == [] then s else Step(Run(s, events[..|events| - 1]), events[|events| - 1])
  }

  // ---------------------------------------------------------------------
  // The invariant

  /** What every reachable state satisfies: the clip index is determined by
      the number of answers (it stops at the last clip), the score counts the
      correct answers, the current streak is the trailing run of correct
      answers, the best streak is at least the longest run in this game (it
      survives resets) and the results are shown only once all clips were answered. */
  ghost predicate Inv(s: Session)
  {
    && s.clipIndex < TotalClips
    && s.clipIndex == Min(|s.history|, TotalClips - 1)
    && s.score == CountTrue(s.history)
    && s.currentStreak == TrailingRun(s.history)
    && s.longestStreak >= LongestRun(s.history)
    && (s.showResults ==> |s.history| >= TotalClips)
  }

  lemma GuessKeepsInv(s: Session, guessedAI: bool)
    requires Inv(s)
    ensures Inv(AfterGuess(s, guessedAI))
    ensures AfterGuess(s, guessedAI).longestStreak >= AfterGuess(s, guessedAI).currentStreak
  {
    AppendAnswer(s.history, IsCorrect(s.clipIndex, guessedAI));
  }

  lemma StepKeepsInv(s: Session, e: Event)
    requires Inv(s)
    ensures Inv(Step(s, e))
    ensures Step(s, e).longestStreak >= s.longestStreak
  {
    match e
    case Guess(g) => GuessKeepsInv(s, g);
    case KeyPress(k) =>
      if KeyCommand(k, s.replaysUsed).GuessCommand? {
        GuessKeepsInv(s, KeyCommand(k, s.replaysUsed).guessedAI);
      }
    case _ =>
  }

  /** Every state reachable from the first render satisfies the invariant, its
      replay counter is still zero and its best streak is at least its current one. */
  lemma {:induction false} ReachableInv(events: seq<Event>)
    ensures Inv(Run(Initial(), events))
    ensures Run(Initial(), events).replaysUsed == 0
    ensures Run(Initial(), events).longestStreak >= Run(Initial(), events).currentStreak
  {
    if events != [] {
      var before := Run(Initial(), events[..|events| - 1]);
      ReachableInv(events[..|events| - 1]);
      StepKeepsInv(before, events[|events| - 1]);
    }
  }

  /** The best streak never decreases, whatever happens. */
  lemma {:induction false} LongestStreakNeverDecreases(s: Session, events: seq<Event>)
    requires Inv(s)
    ensures Inv(Run(s, events))
    ensures Run(s, events).longestStreak >= s.longestStreak
  {
    if events != [] {
      LongestStreakNeverDecreases(s, events[..|events| - 1]);
      StepKeepsInv(Run(s, events[..|events| - 1]), events[|events| - 1]);
    }
  }

  // ---------------------------------------------------------------------
  // A whole game

  /** The events of pressing the guess buttons in the order given. */
  function Guesses(gs: seq<bool>): (es: seq<Event>)
    ensures |es| == |gs|
  {
    seq(|gs|, i requires 0 <= i < |gs| => Guess(gs[i]))
  }

  /** Whether each of the guesses, made on the clips in order, is right; every
      guess after the tenth is made on the last clip again. */
  function Marks(gs: seq<bool>): (m: seq<bool>)
    ensures |m| == |gs|
    ensures forall i :: 0 <= i < |gs| ==> m[i] == (gs[i] == MockClips[Min(i, TotalClips - 1)].isAI)
  {
    seq(|gs|, i requires 0 <= i < |gs| => gs[i] == MockClips[Min(i, TotalClips - 1)].isAI)
  }

  /** The guesses applied one after the other. */
  function PlayGuesses(s: Session, gs: seq<bool>): (t: Session)
    requires s.clipIndex < TotalClips
    ensures t.clipIndex < TotalClips
  {
    if gs == [] then s else AfterGuess(PlayGuesses(s, gs[..|gs| - 1]), gs[|gs| - 1])
  }

  /** Pressing guess buttons in a row is the same as applying the guesses. */
  lemma {:induction false} RunOfGuesses(s: Session, gs: seq<bool>)
    requires s.clipIndex < TotalClips
    ensures Run(s, Guesses(gs)) == PlayGuesses(s, gs)
    decreases |gs|
  {
    if gs != [] {
      var es := Guesses(gs);
      RunOfGuesses(s, gs[..|gs| - 1]);
      assert es[..|es| - 1] == Guesses(gs[..|gs| - 1]);
      assert es[|es| - 1] == Guess(gs[|gs| - 1]);
      var before := Run(s, es[..|es| - 1]);
      assert Run(s, es) == Step(before, es[|es| - 1]);
      assert Step(before, Guess(gs[|gs| - 1])) == AfterGuess(before, gs[|gs| - 1]);
    }
  }

  /** A new game after a reset, with the given guesses. */
  function Game(s: Session, gs: seq<bool>): (t: Session)
    ensures t.clipIndex < TotalClips
  {
    PlayGuesses(AfterReset(s), gs)
  }

  lemma GameStep(s: Session, gs: seq<bool>)
    requires gs != []
    ensures Game(s, gs) == AfterGuess(Game(s, gs[..|gs| - 1]), gs[|gs| - 1])
  {
  }

  /** Any number of guesses after a reset: the history records, in order,
      whether each guess matched its clip (one entry per guess); the clip index
      follows the answers and stops at the last clip; the results are open
      exactly from the tenth answer on; the replay counter is back at zero. */
  lemma {:induction false} GameProgress(s: Session, gs: seq<bool>)
    ensures Game(s, gs).history == Marks(gs)
    ensures |Game(s, gs).history| == |gs|
    ensures Game(s, gs).clipIndex == Min(|gs|, TotalClips - 1)
    ensures Game(s, gs).showResults <==> |gs| >= TotalClips
    ensures Game(s, gs).replaysUsed == 0
    decreases |gs|
  {
    if gs == [] {
      assert Marks(gs) == [];
    } else {
      var init, g := gs[..|gs| - 1], gs[|gs| - 1];
      GameProgress(s, init);
      var before := Game(s, init);
      GameStep(s, gs);
      assert before.clipIndex == Min(|init|, TotalClips - 1);
      MarksAppend(gs);
    }
  }

  lemma MarksAppend(gs: seq<bool>)
    requires gs != []
    ensures Marks(gs) == Marks(gs[..|gs| - 1]) + [IsCorrect(Min(|gs| - 1, TotalClips - 1), gs[|gs| - 1])]
  {
    var init := gs[..|gs| - 1];
    assert forall i :: 0 <= i < |init| ==> init[i] == gs[i];
  }

  lemma GameInv(s: Session, gs: seq<bool>)
    ensures Inv(Game(s, gs))
  {
    LongestStreakNeverDecreases(AfterReset(s), Guesses(gs));
    RunOfGuesses(AfterReset(s), gs);
  }

  /** In such a game the score counts the right answers and the current streak
      is the run of right answers at the end. */
  lemma GameScore(s: Session, gs: seq<bool>)
    ensures Game(s, gs).score == CountTrue(Marks(gs))
    ensures Game(s, gs).currentStreak == TrailingRun(Marks(gs))
  {
    GameInv(s, gs);
    GameProgress(s, gs);
  }

  /** One guess keeps "the best streak is the longest run of this game, or an
      earlier game's best". */
  lemma GuessKeepsBestStreak(b: Session, guessedAI: bool, earlier: nat)
    requires b.clipIndex < TotalClips && b.currentStreak == TrailingRun(b.history)
    requires b.longestStreak == Max(earlier, LongestRun(b.history))
    ensures AfterGuess(b, guessedAI).longestStreak == Max(earlier, LongestRun(AfterGuess(b, guessedAI).history))
  {
    AppendAnswer(b.history, IsCorrect(b.clipIndex, guessedAI));
  }

  /** The best streak after such a game is the longest run of right answers in
      it, unless an earlier game's was longer. */
  lemma {:induction false} GameLongestStreak(s: Session, gs: seq<bool>)
    ensures Game(s, gs).longestStreak == Max(s.longestStreak, LongestRun(Marks(gs)))
    decreases |gs|
  {
    GameProgress(s, gs);
    if gs == [] {
      assert Marks(gs) == [];
    } else {
      var init := gs[..|gs| - 1];
      GameLongestStreak(s, init);
      GameScore(s, init);
      GameProgress(s, init);
      GuessKeepsBestStreak(Game(s, init), gs[|gs| - 1], s.longestStreak);
    }
  }

  lemma {:induction false} AllTrueRuns(h: seq<bool>)
    requires AllTrue(h)
    ensures CountTrue(h) == |h| && TrailingRun(h) == |h| && LongestRun(h) == |h|
    decreases |h|
  {
    if h != [] {
      AllTrueRuns(h[..|h| - 1]);
    }
  }

  /** right, wrong, right, wrong, ... of length n */
  function Alternating(n: nat): (h: seq<bool>)
    ensures |h| == n
  {
    seq(n, i => i % 2 == 0)
  }

  lemma {:induction false} AlternatingRuns(n: nat)
    ensures CountTrue(Alternating(n)) == (n + 1) / 2
    ensures TrailingRun(Alternating(n)) == n % 2
    ensures LongestRun(Alternating(n)) == Min(n, 1)
    decreases n
  {
    if n > 0 {
      AlternatingRuns(n - 1);
      assert Alternating(n) == Alternating(n - 1) + [(n - 1) % 2 == 0];
      AppendAnswer(Alternating(n - 1), (n - 1) % 2 == 0);
    }
  }

  /** Ten right answers in a fresh game: score 10, best streak 10, all ten marks true. */
  lemma AllCorrectGame()
    ensures var t := Game(Initial(), seq(10, i => i % 2 == 1));
      t.score == 10 && t.longestStreak == 10 && t.history == seq(10, i => true) && t.showResults
  {
    var gs := seq(10, i => i % 2 == 1);
    GameProgress(Initial(), gs);
    GameScore(Initial(), gs);
    GameLongestStreak(Initial(), gs);
    assert Marks(gs) == seq(10, i => true);
    AllTrueRuns(Marks(gs));
  }

  /** Ten right answers and then one more right guess on the last clip, which
      the screen still accepts: eleven answers, all right, so the dialog shows
      110 % and no Perfect Score badge. */
  lemma ElevenRightGuesses()
    ensures var t := Game(Initial(), seq(11, i => i == 10 || i % 2 == 1));
      && t.score == 11 && |t.history| == 11 && t.longestStreak == 11 && t.showResults
      && ResultsModal.Results(t.score, TotalClips, t.longestStreak, t.history).percentage == 110
      && ResultsModal.PerfectScore !in ResultsModal.Results(t.score, TotalClips, t.longestStreak, t.history).achievements
  {
    var gs := seq(11, i => i == 10 || i % 2 == 1);
    GameProgress(Initial(), gs);
    GameScore(Initial(), gs);
    GameLongestStreak(Initial(), gs);
    assert Marks(gs) == seq(11, i => true);
    AllTrueRuns(Marks(gs));
    ResultsModal.PercentageOfTenClips(11);
  }

  /** Right and wrong answers alternating, starting right: score 5, best streak 1. */
  lemma AlternatingGame()
    // always guess human: right on the human clips at even positions only
    ensures var t := Game(Initial(), seq(10, i => false));
      t.score == 5 && t.longestStreak == 1 && t.history == Alternating(10) && t.showResults
  {
    var gs := seq(10, i => false);
    GameProgress(Initial(), gs);
    GameScore(Initial(), gs);
    GameLongestStreak(Initial(), gs);
    assert Marks(gs) == Alternating(10);
    AlternatingRuns(10);
  }

  // ---------------------------------------------------------------------
  // The component

  class GameSession {
    var currentClipIndex: nat
    var score: nat
    var currentStreak: nat
    var longestStreak: nat
    var gameHistory: seq<bool>
    var replaysUsed: nat
    var showResults: bool

    function State(): Session
      reads this
    {
      Session(currentClipIndex, score, currentStreak, longestStreak, gameHistory, replaysUsed, showResults)
    }

    ghost predicate Valid()
      reads this
    {
      Inv(State())
    }

    constructor ()
      ensures Valid() && State() == Initial()
    {
      currentClipIndex, score, currentStreak, longestStreak := 0, 0, 0, 0;
      gameHistory, replaysUsed, showResults := [], 0, false;
    }

    /** Scores the guess against the current clip, updates the streaks and the
        history, then moves to the next clip or, on the last one, opens the results. */
    method HandleGuess(guessedAI: bool) returns (isCorrect: bool)
      requires Valid()
      modifies this
      ensures Valid()
      ensures isCorrect == IsCorrect(old(currentClipIndex), guessedAI)
      ensures State() == AfterGuess(old(State()), guessedAI)
    {
      ghost var expected := AfterGuess(State(), guessedAI);
      GuessKeepsInv(State(), guessedAI);
      var currentClip := MockClips[currentClipIndex];
      isCorrect := guessedAI == currentClip.isAI;
      if isCorrect {
        score := score + 1;
        var newStreak := currentStreak + 1;
        longestStreak := Max(longestStreak, newStreak);
        currentStreak := newStreak;
        gameHistory := gameHistory + [true];
      } else {
        currentStreak := 0;
        gameHistory := gameHistory + [false];
      }
      if currentClipIndex + 1 >= TotalClips {
        showResults := true;
      } else {
        currentClipIndex := currentClipIndex + 1;
        replaysUsed := 0;
      }
      assert State() == expected;
    }

    /** Plays the current clip; counts a replay only when one was counted before. */
    method PlayClip()
      requires Valid()
      modifies this
      ensures Valid()
      ensures State() == AfterPlay(old(State()))
    {
      if replaysUsed != 0 {
        replaysUsed := replaysUsed + 1;
      }
    }

    method ResetGame()
      requires Valid()
      modifies this
      ensures Valid()
      ensures State() == AfterReset(old(State()))
    {
      currentClipIndex := 0;
      score := 0;
      currentStreak := 0;
      gameHistory := [];
      replaysUsed := 0;
      showResults := false;
    }

    method CloseResults()
      requires Valid()
      modifies this
      ensures Valid()
      ensures State() == AfterClose(old(State()))
    {
      showResults := false;
    }

    method PlayAgain()
      requires Valid()
      modifies this
      ensures Valid()
      ensures State() == AfterPlayAgain(old(State()))
    {
      ResetGame();
      CloseResults();
    }

    method HandleKeyPress(key: string)
      requires Valid()
      modifies this
      ensures Valid()
      ensures State() == AfterKey(old(State()), key)
    {
      var k := ToLower(key);
      if k == "h" {
        var _ := HandleGuess(false);
      } else if k == "a" {
        var _ := HandleGuess(true);
      } else if k == "r" && replaysUsed < MaxReplays {
        PlayClip();
      }
    }

    /** What the results dialog shows for the current state: every right
        answer is worth ten points, Perfect Score means ten right answers in the
        history, and the share text carries the answers and the best streak. */
    function Results(): (v: ResultsModal.View)
      reads this
      requires Valid()
      ensures v.percentage == 10 * CountTrue(gameHistory)
      ensures v.emoji == ResultsModal.TierEmoji(ResultsModal.TierOf(10 * CountTrue(gameHistory)))
      ensures v.message == ResultsModal.TierMessage(ResultsModal.TierOf(10 * CountTrue(gameHistory)))
      ensures v.showBestStreak <==> longestStreak > 0
      ensures ResultsModal.PerfectScore in v.achievements <==> CountTrue(gameHistory) == TotalClips
      ensures ResultsModal.StreakMaster in v.achievements <==> longestStreak >= 5
      ensures Scorecard.ReadShareText(v.shareText)
           == Scorecard.Some(Scorecard.Summary(CountTrue(gameHistory), TotalClips, longestStreak, gameHistory))
    {
      ResultsModal.PercentageOfTenClips(score);
      ResultsModal.Results(score, TotalClips, longestStreak, gameHistory)
    }
  }
}
